=== FILE: README.md ===
# Optimistic todo cache: a Dafny model

This project models the client-side cache synchronisation of a small todo
application. Its React hooks keep several cached views of one remote todo
collection consistent while create, update, delete and toggle mutations are
in flight. The model also covers the record validation rules that say what a
well-formed todo, create payload and update patch are.

The cache is a map from query key to data. A list key (`todoKeys.list(filter)`)
holds a sequence of todos; a detail key (`todoKeys.detail(id)`) holds one
todo; a key without data is absent from the map. Each mutation hook has three
callbacks: `onMutate` snapshots the lists it is about to touch and writes a
speculative result; `onSuccess` reconciles with the todo the server returns;
`onError` writes back every snapshot that was defined. Each callback is
modelled as a pure function from cache to cache, and `onMutate` also returns
the context value holding the snapshots. Server results and server failures
are inputs to these functions.

Modules, one per concern:

- `Wrappers` (`wrappers.dfy`): `Option` (for `undefined`) and `Result`.
- `Schema` (`schema.dfy`): the todo, create and update schemas, their
  parsers with field-naming errors, and the `{ ...todo, ...patch }` merge.
- `TodoSeq` (`todo_seq.dfy`): the array operations the callbacks use. These
  are map-replace by id, patch by id, filter-out by id, find-first by id and
  insert-or-replace. Each comes with a relational description of its result
  (`ReplacedById`, `PatchedById`, `RemovedById`).
- `QueryKeys` (`query_keys.dfy`): `todoKeys` as a datatype, with its
  array form and prefixes.
- `QueryCache` (`query_cache.dfy`): the cache map with `getQueryData`,
  `setQueryData` and `removeQueries`, its well-typedness invariant (list keys
  hold lists, detail keys hold single todos), and its validity invariant (every
  cached todo passes the todo schema).
- `Mutations` (`mutations.dfy`): the callbacks of `useCreateTodo`,
  `useUpdateTodo` and `useDeleteTodo`, and the mutation function of
  `useToggleTodo`.
- `MutationProperties` (`mutation_properties.dfy`): lemmas that relate the
  callbacks of one mutation to each other and to the cache they start from.

Rollback is not a return to the exact pre-mutation cache. Each `onError`
writes back only the snapshots that were defined (src/hooks/useTodos.ts:142-153),
so a list that was absent before a failed create keeps the placeholder
(`CreateRollback`). The optimistic steps of update and delete never create a
list, so a failed update or delete restores every list exactly
(`UpdateRollbackExact`, `DeleteRollback`). A failed delete still leaves its
detail entry removed.

The model also records two consequences of the code as written:

- Update `onSuccess` decides whether `completed` changed only by looking in
  the snapshot of the unfiltered list. Whenever that snapshot shows no change,
  the filtered lists are only replaced in place. A todo of the active list
  that the server returns completed then stays in the active list with its
  new status (`UnseenChangeLeavesStaleFilter`). Three situations hide the
  change: the unfiltered list is not cached (`UncachedAllListLeavesStaleFilter`);
  it is cached but does not carry the todo; or its copy of the todo already
  has the server's status while a filtered list still holds a stale copy.
  When the server changes the status of a todo that the active list holds,
  the filtered lists end consistent only when the cached unfiltered list
  carries the todo with its old status (`UnseenChangeLeavesStaleFilter`).
  Conversely, whenever the cached unfiltered list shows the change, a
  consistent cache stays consistent (`UpdateCommittedConsistent`).
- Create `onSuccess` files the server's todo under the server's `completed`
  value. If that differs from the requested one, the placeholder stays in the
  other filtered list (`CreateCompletedMismatch`).

## Model

| member | source | states |
|---|---|---|
| `Schema.ParseTodo` | src/hooks/todoSchema.ts:4-9 | A record passes iff `userId` and `id` are positive integers, `title` has length at least 1 and `completed` is present; on success the todo carries exactly the record's fields; on failure the issues name exactly the offending fields, and an empty title carries 'Title is required' |
| `Schema.ParseCreate` | src/hooks/todoSchema.ts:12-16 | A create payload passes iff `userId` is a positive integer and `title` is non-empty; `completed` is kept when present and defaults to false; the result has no `id`; failures name exactly the offending fields, and an empty title carries 'Title is required' |
| `Schema.ParseUpdate` | src/hooks/todoSchema.ts:19-23 | A patch passes iff each present field obeys its todo rule; the result carries exactly the present fields; failures name exactly the offending fields, and an empty title carries 'Title is required' |
| `Schema.Merge` | src/hooks/useTodos.ts:195 | Fields present in the patch overwrite the todo's; absent ones keep the todo's value; the id never changes |
| `Schema.MergeKeepsValid` | src/hooks/todoSchema.ts:4-23 | Merging a valid patch into a valid todo gives a valid todo with the same id |
| `Schema.EmptyPatch` | src/hooks/todoSchema.ts:19-23 | The empty patch passes validation and changes nothing when merged |
| `Schema.MergeIdempotent` | src/hooks/useTodos.ts:195 | Applying a patch twice equals applying it once |
| `Schema.BlankTitleAccepted` | src/hooks/todoSchema.ts:7 | The title rule is length only: a single blank passes, and the empty title fails with exactly one issue, 'Title is required' |
| `Schema.CreateIgnoresId` | src/hooks/todoSchema.ts:12-16 | The create schema's outcome does not depend on any `id` in the payload |
| `Schema.TodoPassesOtherSchemas` | src/hooks/todoSchema.ts:4-23 | A record valid as a todo is also a valid create payload and a valid patch |
| `TodoSeq.ReplaceById` | src/hooks/useTodos.ts:125 | Same length; every element carrying the id becomes the given todo; every other element is unchanged at its position |
| `TodoSeq.PatchById` | src/hooks/useTodos.ts:194-196 | Same length; every element carrying the id has the patch merged in; every other element is unchanged at its position |
| `TodoSeq.RemoveById` | src/hooks/useTodos.ts:364 | The result keeps the input's relative order, carries no element with the id, holds every other element, and is shorter by exactly the number of occurrences of the id |
| `TodoSeq.RemovedByIdUnique` | src/hooks/useTodos.ts:364 | The relational description of filtering out an id determines the result uniquely |
| `TodoSeq.RemoveIdempotent` | src/hooks/useTodos.ts:364 | Filtering out an id twice equals filtering it out once |
| `TodoSeq.ReplaceAbsent` | src/hooks/useTodos.ts:125 | Replacing an id a list does not carry leaves the list unchanged |
| `TodoSeq.FindById` | src/hooks/useTodos.ts:231 | Finds a todo iff one carries the id; the todo found is the first one carrying it |
| `TodoSeq.Upsert` | src/hooks/useTodos.ts:256-261 | If the list carries the id, those elements are replaced in place; otherwise the todo goes in front of the unchanged list; the result holds the todo and nothing else carrying the id |
| `QueryKeys.Path` | src/hooks/useTodos.ts:14-21 | Every key lies under `['todos']`; list keys extend `lists()` and detail keys extend `details()` by exactly one element |
| `QueryKeys.PathInjective` | src/hooks/useTodos.ts:14-21 | Two keys have equal array forms iff they are the same key |
| `QueryKeys.PrefixesDisjoint` | src/hooks/useTodos.ts:14-21 | A key extends `lists()` iff it is a list key and `details()` iff it is a detail key |
| `QueryCache.SetList` | src/hooks/useTodos.ts:200-208 | Writing a list reads back as written (writing `undefined` reads back as absent); no other key changes; list keys keep holding lists |
| `QueryCache.SetTodo` | src/hooks/useTodos.ts:228 | Writing a detail entry reads back as written; no other key changes |
| `QueryCache.RemoveTodo` | src/hooks/useTodos.ts:378 | The detail entry is gone; no other key changes |
| `Mutations.Placeholder` | src/hooks/useTodos.ts:88-91 | The optimistic todo carries the payload's fields under the temporary id, and it is schema-valid exactly when the payload is valid and the temporary id is positive |
| `Mutations.PrependTo` | src/hooks/useTodos.ts:95-110 | An absent list becomes `[t]`; a present list becomes `t` followed by the old list unchanged |
| `Mutations.CreateOnMutate` | src/hooks/useTodos.ts:73-120 | The context holds the three list snapshots and the temp id; the unfiltered list and the filtered list matching the input's `completed` become the placeholder followed by the old list (or just the placeholder if absent); the other filtered list and every other key are untouched |
| `Mutations.ReconcileList` | src/hooks/useTodos.ts:123-126 | An absent list becomes `[created]`; a present list has the elements carrying the temp id replaced in place by the server todo, everything else unchanged |
| `Mutations.CreateOnSuccess` | src/hooks/useTodos.ts:121-139 | In the unfiltered list and the list matching the server todo's `completed`, elements carrying the temp id are replaced in place by the server todo, all else unchanged; an absent list becomes `[created]`; nothing else is written |
| `Mutations.CreateOnError` | src/hooks/useTodos.ts:140-155 | Each list whose snapshot was defined gets exactly that snapshot; lists with undefined snapshots and all other keys are left as they are |
| `Mutations.PatchList` | src/hooks/useTodos.ts:192-197 | An absent list stays absent; a present list has the patch merged into the target's elements, everything else unchanged in place |
| `Mutations.UpdateOnMutate` | src/hooks/useTodos.ts:176-225 | Snapshots the three lists and the detail entry; patches every present list in place and keeps absent lists absent; patches the detail entry only if it existed; writes nothing outside the four keys |
| `Mutations.CompletedChanged` | src/hooks/useTodos.ts:230-232 | True only when the unfiltered snapshot exists and carries the id, and then exactly when the first such todo's `completed` differs from the server's |
| `Mutations.ReplaceList` | src/hooks/useTodos.ts:238-241 | An absent list stays absent; a present list has the target's elements replaced in place by the server todo, everything else unchanged |
| `Mutations.UpsertList` | src/hooks/useTodos.ts:253-262 | An absent list becomes `[t]`; a list carrying the id has those elements replaced in place; a list without it gets `t` in front |
| `Mutations.RemoveFromList` | src/hooks/useTodos.ts:362-365 | An absent list stays absent; a present list loses exactly the target's elements, keeping the others in order |
| `Mutations.UpdateOnSuccess` | src/hooks/useTodos.ts:226-306 | The detail entry becomes the server todo. The unfiltered list is replaced in place. If `completed` changed, the target leaves the list it no longer matches and is replaced in, prepended to, or made the sole element of the list it now matches; otherwise both filtered lists are replaced in place. Absent lists stay absent except the joined one, and nothing outside the four keys is written |
| `Mutations.UpdateOnError` | src/hooks/useTodos.ts:307-328 | Each defined list snapshot and a defined detail snapshot are written back exactly; everything else is left as it is |
| `Mutations.DeleteOnMutate` | src/hooks/useTodos.ts:347-382 | Snapshots the three lists; each present list loses exactly the deleted id's elements in order; absent lists stay absent; the detail entry is removed; nothing else is written |
| `Mutations.DeleteOnSuccess` | src/hooks/useTodos.ts:383-386 | A successful delete writes nothing: every key reads as it did after the optimistic removal |
| `Mutations.DeleteOnError` | src/hooks/useTodos.ts:387-402 | Each defined list snapshot is written back exactly; the deleted id's detail entry and all other keys are left as they are |
| `Mutations.Toggle` | src/hooks/useTodos.ts:413-426 | Fails with a not-found error iff the detail entry holds no todo; otherwise issues an update of that id whose patch sets only `completed`, to the negation of the cached value |
| `MutationProperties.CreateRollback` | src/hooks/useTodos.ts:140-153 | After create then failure, lists that were cached hold their old contents, lists that were absent hold just the placeholder, and nothing else changed |
| `MutationProperties.CreateRollbackExact` | src/hooks/useTodos.ts:140-153 | When both lists a create writes were cached, create then failure returns the exact original cache |
| `MutationProperties.UpdateRollbackExact` | src/hooks/useTodos.ts:307-326 | Update then failure returns the exact original (well-typed) cache |
| `MutationProperties.DeleteRollback` | src/hooks/useTodos.ts:387-400 | Delete then failure returns the original cache minus its detail entry for the id |
| `MutationProperties.DeleteCommitted` | src/hooks/useTodos.ts:383-386 | After delete then success no cached list carries the id and the detail entry is gone |
| `MutationProperties.CreateCommitted` | src/hooks/useTodos.ts:121-138 | With a temp id no cached todo carries and an unchanged `completed`, create then success leaves both touched lists as the server todo followed by the old list |
| `MutationProperties.CreateCompletedMismatch` | src/hooks/useTodos.ts:128-138 | If the server's `completed` differs from the requested one, the placeholder remains in the requested filtered list, and a cached list of the server's status that does not carry the temp id is unchanged |
| `MutationProperties.CreateKeepsFilters` | src/hooks/useTodos.ts:100-111 | The optimistic create keeps each completion-filtered list holding only todos of its status |
| `MutationProperties.DeleteKeepsFilters` | src/hooks/useTodos.ts:367-375 | The optimistic delete keeps each completion-filtered list holding only todos of its status |
| `MutationProperties.UpdateSuccessConsistent` | src/hooks/useTodos.ts:234-284 | When `completed` changed and all non-target todos match their filter, update success leaves both filtered lists consistent |
| `MutationProperties.UpdateCommittedConsistent` | src/hooks/useTodos.ts:234-284 | With the unfiltered list cached and the status changing, update then success takes a consistent cache to a consistent one |
| `MutationProperties.UnseenChangeLeavesStaleFilter` | src/hooks/useTodos.ts:230-232 | For every cache whose unfiltered snapshot shows no status change, an update of a todo of the active list that the server returns completed leaves it in the active list, and the filtered lists are inconsistent |
| `MutationProperties.UncachedAllListLeavesStaleFilter` | src/hooks/useTodos.ts:230-232 | For every cache without the unfiltered list, an update of a todo of the active list that the server returns completed leaves it in the active list, and the filtered lists are inconsistent |
| `MutationProperties.CreateOnMutateValid` | src/hooks/useTodos.ts:88-111 | For a valid payload and a positive temp id, the optimistic create keeps every cached todo schema-valid |
| `MutationProperties.CreateOnSuccessValid` | src/hooks/useTodos.ts:121-138 | Reconciling with a valid server todo keeps every cached todo schema-valid |
| `MutationProperties.UpdateOnMutateValid` | src/hooks/useTodos.ts:192-216 | Merging a valid patch keeps every cached todo schema-valid |
| `MutationProperties.UpdateOnSuccessValid` | src/hooks/useTodos.ts:226-305 | Reconciling with a valid server todo keeps every cached todo schema-valid |
| `MutationProperties.DeleteOnMutateValid` | src/hooks/useTodos.ts:361-378 | The optimistic delete keeps every cached todo schema-valid |
| `MutationProperties.CreateOnErrorValid` | src/hooks/useTodos.ts:140-155 | For any create context whose list snapshots are valid, a failed create keeps every cached todo schema-valid |
| `MutationProperties.UpdateOnErrorValid` | src/hooks/useTodos.ts:307-328 | For any update context whose list and detail snapshots are valid, a failed update keeps every cached todo schema-valid |
| `MutationProperties.DeleteOnErrorValid` | src/hooks/useTodos.ts:387-402 | For any delete context whose list snapshots are valid, a failed delete keeps every cached todo schema-valid |
| `MutationProperties.RollbackValid` | src/hooks/useTodos.ts:140-402 | For any create, update or delete context whose snapshots are valid, the failure callback keeps every cached todo schema-valid |
| `MutationProperties.OtherKeysUntouched` | src/hooks/useTodos.ts:73-402 | For every context, none of the nine create, update and delete callbacks changes a user- or search-filtered list or another todo's detail entry |
| `MutationProperties.ToggleFlips` | src/hooks/useTodos.ts:413-426 | When the detail entry exists, the toggle succeeds with a valid patch whose optimistic step flips exactly `completed` in the detail entry |

## Left out

- Query hooks `useTodos`, `useTodo` and `useTodosByUserId` (src/hooks/useTodos.ts:26-56) are left out. They only pass a key and a fetcher to react-query. That library's staleness timer (30 seconds), request de-duplication, retries and cache time are not part of this model.
- `cancelQueries` (src/hooks/useTodos.ts:75, 178-179, 349-350) is left out: it concerns in-flight fetches, which the model does not have.
- `Date.now()` as the temporary id is left out: `tempId` is a parameter. The code does not guard against a collision with a server id, so `CreateCommitted` and `CreateCompletedMismatch` take as a precondition that the lists they read do not already carry the temp id.
- `src/hooks/todoApi.ts` (HTTP requests, JSON decoding, URL building) is left out as I/O. Server todos are inputs to the success callbacks; a failed request is the choice to apply `onError`.
- Concurrency is left out. Two mutations can interleave at their `await` points, and the code gives no ordering guarantee. Each lemma composes the callbacks of a single mutation.
- Logging with `console.error` is left out.
- The not-found message text is left out. The toggle error carries the id; formatting the number into the message is not modelled.
- The context being `undefined` (when `onMutate` throws) is left out. Modelled `onMutate` callbacks are total and always return their context.
- Numbers are mathematical integers. Non-integer, non-finite and wrongly typed JSON values are not represented, so `.int()` holds by construction. A missing field is `None`.
- A patch key present with the value `undefined` is not represented. The spread would copy it over the todo's field, but in the model an absent field is `None`, which the merge skips.
- `setQueryData` with an updater that returns `undefined` leaves the key without data. The model removes the key from the map, which reads back the same.
- Validation messages other than 'Title is required' are the validator library's defaults. They are not in the source, and issues carry `None` for them.
- UI and glue are left out: components, `App.tsx` handlers and snackbar, theme persistence, the search debounce, the 20-item display slice, and the `hooks/index.ts` re-exports.

=== FILE: mutation_properties.dfy ===
/**
 * Properties relating the callbacks of one mutation to each other and to the
 * cache they start from: what a failed mutation leaves behind, what a
 * successful one converges to, and which cache-wide invariants each step
 * keeps.
 */
module MutationProperties {
  import opened Wrappers
  import opened Schema
  import opened TodoSeq
  import opened QueryKeys
  import opened QueryCache
  import opened Mutations

  // ---------------------------------------------------------------------------
  // Rollback
  // ---------------------------------------------------------------------------

  /**
   * A failed create restores every list whose snapshot was defined. A list
   * that was absent before keeps the placeholder: rollback is not a return
   * to the exact pre-mutation cache.
   */
  lemma CreateRollback(c: Cache, input: CreateInput, tempId: int)
    ensures var (c1, ctx) := CreateOnMutate(c, input, tempId);
            var r := CreateOnError(c1, ctx);
            var t := Placeholder(input, tempId);
            && GetList(r, AllTodos) == (if GetList(c, AllTodos).Some? then GetList(c, AllTodos) else Some([t]))
            && GetList(r, CompletedList(input.completed))
               == (if GetList(c, CompletedList(input.completed)).Some? then GetList(c, CompletedList(input.completed)) else Some([t]))
            && GetList(r, CompletedList(!input.completed)) == GetList(c, CompletedList(!input.completed))
            && UnchangedExcept(c, r, {AllTodos, CompletedList(input.completed)})
  {
    var (c1, ctx) := CreateOnMutate(c, input, tempId);
    var r := CreateOnError(c1, ctx);
    var t := Placeholder(input, tempId);
    UnchangedTrans(c, c1, r, {AllTodos, CompletedList(input.completed)}, ListKeys());
    forall k | k == AllTodos || k == CompletedList(input.completed)
      ensures GetList(r, k) == (if GetList(c, k).Some? then GetList(c, k) else Some([t]))
    {
      if GetList(c, k).None? {
        assert SameAt(c1, r, k);
        assert GetList(c1, k).value == [t];
      }
    }
    forall k | k !in {AllTodos, CompletedList(input.completed)}
      ensures SameAt(c, r, k)
    {
      if k in ListKeys() {
        assert k == CompletedList(!input.completed);
        assert SameAt(c, c1, k);
      }
    }
  }

  /**
   * When every list a create touches was cached, a failed create leaves the
   * cache exactly as it found it.
   */
  lemma CreateRollbackExact(c: Cache, input: CreateInput, tempId: int)
    requires WellTyped(c)
    requires GetList(c, AllTodos).Some? && GetList(c, CompletedList(input.completed)).Some?
    ensures var (c1, ctx) := CreateOnMutate(c, input, tempId);
            CreateOnError(c1, ctx) == c
  {
    var (c1, ctx) := CreateOnMutate(c, input, tempId);
    var r := CreateOnError(c1, ctx);
    CreateRollback(c, input, tempId);
    forall k ensures SameAt(c, r, k) {
      if k == AllTodos || k == CompletedList(input.completed) {
        WellTypedList(c, k);
        WellTypedList(r, k);
      }
    }
    Extensional(c, r);
  }

  /**
   * A failed update leaves a well-typed cache exactly as it found it: lists
   * and detail entries that were absent were never written.
   */
  lemma UpdateRollbackExact(c: Cache, id: int, p: Patch)
    requires WellTyped(c)
    ensures var (c1, ctx) := UpdateOnMutate(c, id, p);
            UpdateOnError(c1, id, ctx) == c
  {
    var (c1, ctx) := UpdateOnMutate(c, id, p);
    var r := UpdateOnError(c1, id, ctx);
    UnchangedTrans(c, c1, r, WriteSet(id), WriteSet(id));
    forall k ensures SameAt(c, r, k) {
      if k in ListKeys() {
        WellTypedList(c, k);
        WellTypedList(c1, k);
        WellTypedList(r, k);
      } else if k == DetailKey(id) {
        if ctx.previousTodo.None? {
          assert SameAt(c, c1, k) && SameAt(c1, r, k);
        }
      }
    }
    Extensional(c, r);
  }

  /**
   * A failed delete restores every list of a well-typed cache; the detail
   * entry it removed stays removed.
   */
  lemma DeleteRollback(c: Cache, id: int)
    requires WellTyped(c)
    ensures var (c1, ctx) := DeleteOnMutate(c, id);
            DeleteOnError(c1, id, ctx) == RemoveTodo(c, id)
  {
    var (c1, ctx) := DeleteOnMutate(c, id);
    var r := DeleteOnError(c1, id, ctx);
    var e := RemoveTodo(c, id);
    UnchangedTrans(c, c1, r, WriteSet(id), ListKeys());
    forall k ensures SameAt(e, r, k) {
      if k in ListKeys() {
        WellTypedList(c, k);
        WellTypedList(c1, k);
        WellTypedList(r, k);
        assert SameAt(c, e, k);
      } else if k == DetailKey(id) {
        assert SameAt(c1, r, k);
      } else {
        assert SameAt(c, e, k) && SameAt(c, r, k);
      }
    }
    Extensional(e, r);
  }

  /** A delete that succeeds leaves the optimistic cache as the final state. */
  lemma DeleteCommitted(c: Cache, id: int)
    ensures var r := DeleteOnSuccess(DeleteOnMutate(c, id).0);
            && DetailKey(id) !in r
            && (GetList(r, AllTodos).Some? ==> !HasId(GetList(r, AllTodos).value, id))
            && (GetList(r, CompletedList(false)).Some? ==> !HasId(GetList(r, CompletedList(false)).value, id))
            && (GetList(r, CompletedList(true)).Some? ==> !HasId(GetList(r, CompletedList(true)).value, id))
  {
  }

  // ---------------------------------------------------------------------------
  // Create: the placeholder and the server todo
  // ---------------------------------------------------------------------------

  /** Replacing the head placeholder of a list that does not otherwise carry its id. */
  lemma ReplacePlaceholder(s: seq<Todo>, t: Todo, created: Todo)
    requires !HasId(s, t.id)
    ensures ReplaceById([t] + s, t.id, created) == [created] + s
  {
    var r := ReplaceById([t] + s, t.id, created);
    assert forall i :: 1 <= i < |r| ==> r[i] == ([t] + s)[i] == s[i - 1];
  }

  /**
   * Create then success, with a temporary id no cached todo carries and a
   * server todo that kept the requested `completed`: the lists the create
   * touched end as `[created, ...before]`.
   */
  lemma CreateCommitted(c: Cache, input: CreateInput, tempId: int, created: Todo)
    requires !HasId(GetList(c, AllTodos).GetOr([]), tempId)
    requires !HasId(GetList(c, CompletedList(input.completed)).GetOr([]), tempId)
    requires created.completed == input.completed
    ensures var (c1, ctx) := CreateOnMutate(c, input, tempId);
            var r := CreateOnSuccess(c1, created, ctx);
            && GetList(r, AllTodos) == Some([created] + GetList(c, AllTodos).GetOr([]))
            && GetList(r, CompletedList(input.completed)) == Some([created] + GetList(c, CompletedList(input.completed)).GetOr([]))
            && UnchangedExcept(c, r, {AllTodos, CompletedList(input.completed)})
  {
    var (c1, ctx) := CreateOnMutate(c, input, tempId);
    var r := CreateOnSuccess(c1, created, ctx);
    var t := Placeholder(input, tempId);
    var k := CompletedList(input.completed);
    ReplacePlaceholder(GetList(c, AllTodos).GetOr([]), t, created);
    ReplacePlaceholder(GetList(c, k).GetOr([]), t, created);
    assert GetList(c1, AllTodos).value == [t] + GetList(c, AllTodos).GetOr([]);
    assert GetList(c1, k).value == [t] + GetList(c, k).GetOr([]);
    UnchangedTrans(c, c1, r, {AllTodos, k}, {AllTodos, k});
  }

  /**
   * When the server's todo comes back with a different `completed` than was
   * requested, the placeholder stays in the filtered list the create wrote,
   * and the server todo is not added to a cached list of its own status.
   */
  lemma CreateCompletedMismatch(c: Cache, input: CreateInput, tempId: int, created: Todo)
    requires created.completed != input.completed
    requires GetList(c, CompletedList(created.completed)).Some?
    requires !HasId(GetList(c, CompletedList(created.completed)).value, tempId)
    ensures var (c1, ctx) := CreateOnMutate(c, input, tempId);
            var r := CreateOnSuccess(c1, created, ctx);
            && Placeholder(input, tempId) in GetList(r, CompletedList(input.completed)).value
            && GetList(r, CompletedList(created.completed)) == GetList(c, CompletedList(created.completed))
  {
    var (c1, ctx) := CreateOnMutate(c, input, tempId);
    var r := CreateOnSuccess(c1, created, ctx);
    var stale := CompletedList(input.completed);
    var own := CompletedList(created.completed);
    assert own == CompletedList(!input.completed);
    assert SameAt(c1, r, stale);
    assert GetList(r, stale).value[0] == Placeholder(input, tempId);
    ReplaceAbsent(GetList(c, own).value, tempId, created);
  }

  // ---------------------------------------------------------------------------
  // Update: filtered lists and the `completed` status
  // ---------------------------------------------------------------------------

  /** Every todo of a present list has `completed == b`. */
  ghost predicate ListMatches(v: Option<seq<Todo>>, b: bool) {
    v.Some? ==> forall i :: 0 <= i < |v.value| ==> v.value[i].completed == b
  }

  /** Every todo of a present list other than `id`'s has `completed == b`. */
  ghost predicate ListMatchesExcept(v: Option<seq<Todo>>, b: bool, id: int) {
    v.Some? ==> forall i :: 0 <= i < |v.value| && v.value[i].id != id ==> v.value[i].completed == b
  }

  /** Each completion-filtered list holds only todos of its status. */
  ghost predicate FilterConsistent(c: Cache) {
    ListMatches(GetList(c, CompletedList(false)), false) && ListMatches(GetList(c, CompletedList(true)), true)
  }

  /** The optimistic create keeps the filtered lists consistent. */
  lemma CreateKeepsFilters(c: Cache, input: CreateInput, tempId: int)
    requires FilterConsistent(c)
    ensures FilterConsistent(CreateOnMutate(c, input, tempId).0)
  {
    var r := CreateOnMutate(c, input, tempId).0;
    var k := CompletedList(input.completed);
    assert SameAt(c, r, CompletedList(!input.completed));
    var s := GetList(r, k).value;
    assert forall i :: 1 <= i < |s| ==> s[i] == s[1..][i - 1];
  }

  /** The optimistic delete keeps the filtered lists consistent. */
  lemma DeleteKeepsFilters(c: Cache, id: int)
    requires FilterConsistent(c)
    ensures FilterConsistent(DeleteOnMutate(c, id).0)
  {
    var r := DeleteOnMutate(c, id).0;
    forall b: bool ensures ListMatches(GetList(r, CompletedList(b)), b) {
      var v := GetList(r, CompletedList(b));
      if v.Some? {
        forall i | 0 <= i < |v.value| ensures v.value[i].completed == b {
          assert v.value[i] in v.value;
        }
      }
    }
  }

  /** A list whose other todos match `b`, after `id`'s elements are removed, matches `b`. */
  lemma RemovedMatches(v: Option<seq<Todo>>, w: Option<seq<Todo>>, b: bool, id: int)
    requires ListMatchesExcept(v, b, id)
    requires w == RemoveFromList(v, id)
    ensures ListMatches(w, b)
  {
    if w.Some? {
      forall i | 0 <= i < |w.value| ensures w.value[i].completed == b {
        assert w.value[i] in v.value;
        var j :| 0 <= j < |v.value| && v.value[j] == w.value[i];
      }
    }
  }

  /**
   * When `completed` changed, a successful update leaves both filtered lists
   * consistent, provided every todo other than the target already matched
   * its filter.
   */
  lemma UpdateSuccessConsistent(c: Cache, id: int, updated: Todo, ctx: UpdateContext)
    requires CompletedChanged(ctx.previousAll, id, updated)
    requires ListMatchesExcept(GetList(c, CompletedList(false)), false, id)
    requires ListMatchesExcept(GetList(c, CompletedList(true)), true, id)
    ensures FilterConsistent(UpdateOnSuccess(c, id, updated, ctx))
  {
    var r := UpdateOnSuccess(c, id, updated, ctx);
    var leaving := CompletedList(!updated.completed);
    var joining := CompletedList(updated.completed);
    RemovedMatches(GetList(c, leaving), RemoveFromList(GetList(c, leaving), id), !updated.completed, id);
    var v := GetList(c, joining);
    var w := GetList(r, joining);
    assert ListMatches(w, updated.completed) by {
      if v.Some? && !HasId(v.value, id) {
        assert forall i :: 1 <= i < |w.value| ==> w.value[i] == v.value[i - 1];
      }
    }
    assert ListRemoved(GetList(c, leaving), GetList(r, leaving), id);
    RemovedByIdUnique(GetList(c, leaving).GetOr([]), GetList(r, leaving).GetOr([]),
                      RemoveFromList(GetList(c, leaving), id).GetOr([]), id);
    if updated.completed {
      assert GetList(r, CompletedList(false)) == RemoveFromList(GetList(c, CompletedList(false)), id);
    } else {
      assert GetList(r, CompletedList(true)) == RemoveFromList(GetList(c, CompletedList(true)), id);
    }
  }

  /**
   * With the unfiltered list cached and the target's status changing, an
   * update that succeeds takes a consistent cache to a consistent one.
   */
  lemma UpdateCommittedConsistent(c: Cache, id: int, p: Patch, updated: Todo)
    requires FilterConsistent(c)
    requires CompletedChanged(GetList(c, AllTodos), id, updated)
    ensures var (c1, ctx) := UpdateOnMutate(c, id, p);
            FilterConsistent(UpdateOnSuccess(c1, id, updated, ctx))
  {
    var (c1, ctx) := UpdateOnMutate(c, id, p);
    UpdateSuccessConsistent(c1, id, updated, ctx);
  }

  /**
   * The status change is judged only from the unfiltered list's snapshot.
   * Whenever that snapshot shows no change (the list was not cached, it does
   * not carry the id, or its copy already has the new status), a todo of the
   * active list stays there after an update that completes it, and the
   * filtered lists are no longer consistent.
   */
  lemma UnseenChangeLeavesStaleFilter(c: Cache, id: int, p: Patch, updated: Todo)
    requires !CompletedChanged(GetList(c, AllTodos), id, updated)
    requires GetList(c, CompletedList(false)).Some? && HasId(GetList(c, CompletedList(false)).value, id)
    requires updated.completed
    ensures var (c1, ctx) := UpdateOnMutate(c, id, p);
            var r := UpdateOnSuccess(c1, id, updated, ctx);
            && updated in GetList(r, CompletedList(false)).value
            && !FilterConsistent(r)
  {
    var (c1, ctx) := UpdateOnMutate(c, id, p);
    var r := UpdateOnSuccess(c1, id, updated, ctx);
    var s := GetList(c, CompletedList(false)).value;
    var i :| 0 <= i < |s| && s[i].id == id;
    assert GetList(c1, CompletedList(false)).value[i].id == id;
    assert GetList(r, CompletedList(false)).value[i] == updated;
  }

  /** A cache without the unfiltered list: the stale case above always applies. */
  lemma UncachedAllListLeavesStaleFilter(c: Cache, id: int, p: Patch, updated: Todo)
    requires GetList(c, AllTodos).None?
    requires GetList(c, CompletedList(false)).Some? && HasId(GetList(c, CompletedList(false)).value, id)
    requires updated.completed
    ensures var (c1, ctx) := UpdateOnMutate(c, id, p);
            var r := UpdateOnSuccess(c1, id, updated, ctx);
            && updated in GetList(r, CompletedList(false)).value
            && !FilterConsistent(r)
  {
    UnseenChangeLeavesStaleFilter(c, id, p, updated);
  }

  // ---------------------------------------------------------------------------
  // Schema validity of the cache
  // ---------------------------------------------------------------------------

  /** A cache built from a valid one by writes that are each valid is valid. */
  lemma ValidAfterWrites(c: Cache, r: Cache, id: int)
    requires CacheValid(c) && WellTyped(r)
    requires UnchangedExcept(c, r, WriteSet(id))
    requires ValidSnapshot(GetList(r, AllTodos))
    requires ValidSnapshot(GetList(r, CompletedList(false)))
    requires ValidSnapshot(GetList(r, CompletedList(true)))
    requires GetTodo(r, id).Some? ==> ValidTodo(GetTodo(r, id).value)
    ensures CacheValid(r)
  {
    forall k | k in r ensures DataValid(r[k]) {
      if k in ListKeys() {
        WellTypedList(r, k);
      } else if k != DetailKey(id) {
        assert SameAt(c, r, k);
      }
    }
  }

  lemma ReplacedValid(s: seq<Todo>, s': seq<Todo>, id: int, t: Todo)
    requires ValidSnapshot(Some(s)) && ValidTodo(t) && ReplacedById(s, s', id, t)
    ensures ValidSnapshot(Some(s'))
  {
  }

  lemma PatchedValid(s: seq<Todo>, s': seq<Todo>, id: int, p: Patch)
    requires ValidSnapshot(Some(s)) && ValidPatch(p) && PatchedById(s, s', id, p)
    ensures ValidSnapshot(Some(s'))
  {
    forall i | 0 <= i < |s'| ensures ValidTodo(s'[i]) {
      if s[i].id == id { MergeKeepsValid(s[i], p); }
    }
  }

  lemma RemovedValid(s: seq<Todo>, s': seq<Todo>, id: int)
    requires ValidSnapshot(Some(s)) && s' == RemoveById(s, id)
    ensures ValidSnapshot(Some(s'))
  {
    forall i | 0 <= i < |s'| ensures ValidTodo(s'[i]) {
      assert s'[i] in s;
    }
  }

  /** The optimistic create keeps a valid cache valid, for a valid payload and a positive temporary id. */
  lemma CreateOnMutateValid(c: Cache, input: CreateInput, tempId: int)
    requires CacheValid(c) && ValidCreate(input) && tempId > 0
    ensures CacheValid(CreateOnMutate(c, input, tempId).0)
  {
    var r := CreateOnMutate(c, input, tempId).0;
    var t := Placeholder(input, tempId);
    forall k | k in ListKeys() ensures ValidSnapshot(GetList(r, k)) {
      ReadValid(c, k, tempId);
      if k == AllTodos || k == CompletedList(input.completed) {
        var s := GetList(r, k).value;
        assert forall i :: 1 <= i < |s| ==> s[i] == s[1..][i - 1];
      }
    }
    assert SameAt(c, r, DetailKey(tempId));
    ReadValid(c, AllTodos, tempId);
    ValidAfterWrites(c, r, tempId);
  }

  /** Reconciling with a valid server todo keeps a valid cache valid. */
  lemma CreateOnSuccessValid(c: Cache, created: Todo, ctx: CreateContext)
    requires CacheValid(c) && ValidTodo(created)
    ensures CacheValid(CreateOnSuccess(c, created, ctx))
  {
    var r := CreateOnSuccess(c, created, ctx);
    forall k | k in ListKeys() ensures ValidSnapshot(GetList(r, k)) {
      ReadValid(c, k, created.id);
      if GetList(c, k).Some? && (k == AllTodos || k == CompletedList(created.completed)) {
        ReplacedValid(GetList(c, k).value, GetList(r, k).value, ctx.tempId, created);
      }
    }
    assert SameAt(c, r, DetailKey(created.id));
    ReadValid(c, AllTodos, created.id);
    ValidAfterWrites(c, r, created.id);
  }

  /** Merging a valid patch keeps a valid cache valid. */
  lemma UpdateOnMutateValid(c: Cache, id: int, p: Patch)
    requires CacheValid(c) && ValidPatch(p)
    ensures CacheValid(UpdateOnMutate(c, id, p).0)
  {
    var r := UpdateOnMutate(c, id, p).0;
    forall k | k in ListKeys() ensures ValidSnapshot(GetList(r, k)) {
      ReadValid(c, k, id);
      if GetList(c, k).Some? {
        PatchedValid(GetList(c, k).value, GetList(r, k).value, id, p);
      }
    }
    ReadValid(c, AllTodos, id);
    if GetTodo(c, id).Some? {
      MergeKeepsValid(GetTodo(c, id).value, p);
    }
    ValidAfterWrites(c, r, id);
  }

  /** Reconciling with a valid server todo keeps a valid cache valid. */
  lemma UpdateOnSuccessValid(c: Cache, id: int, updated: Todo, ctx: UpdateContext)
    requires CacheValid(c) && ValidTodo(updated)
    ensures CacheValid(UpdateOnSuccess(c, id, updated, ctx))
  {
    var r := UpdateOnSuccess(c, id, updated, ctx);
    var changed := CompletedChanged(ctx.previousAll, id, updated);
    forall k | k in ListKeys() ensures ValidSnapshot(GetList(r, k)) {
      ReadValid(c, k, id);
      var v := GetList(c, k);
      var w := GetList(r, k);
      if v.Some? && w.Some? {
        if k == AllTodos || !changed {
          ReplacedValid(v.value, w.value, id, updated);
        } else if k == CompletedList(!updated.completed) {
          RemovedByIdUnique(v.value, w.value, RemoveById(v.value, id), id);
          RemovedValid(v.value, w.value, id);
        } else if HasId(v.value, id) {
          ReplacedValid(v.value, w.value, id, updated);
        }
      }
    }
    ValidAfterWrites(c, r, id);
  }

  /** The optimistic delete keeps a valid cache valid. */
  lemma DeleteOnMutateValid(c: Cache, id: int)
    requires CacheValid(c)
    ensures CacheValid(DeleteOnMutate(c, id).0)
  {
    var r := DeleteOnMutate(c, id).0;
    forall k | k in ListKeys() ensures ValidSnapshot(GetList(r, k)) {
      ReadValid(c, k, id);
      var v := GetList(c, k);
      if v.Some? {
        RemovedByIdUnique(v.value, GetList(r, k).value, RemoveById(v.value, id), id);
        RemovedValid(v.value, GetList(r, k).value, id);
      }
    }
    ValidAfterWrites(c, r, id);
  }

  /** A failed create writes back valid list snapshots only. */
  lemma CreateOnErrorValid(c: Cache, cc: CreateContext)
    requires CacheValid(c)
    requires ValidSnapshot(cc.previousAll) && ValidSnapshot(cc.previousActive) && ValidSnapshot(cc.previousCompleted)
    ensures CacheValid(CreateOnError(c, cc))
  {
    var r := CreateOnError(c, cc);
    ReadValid(c, AllTodos, cc.tempId);
    ReadValid(c, CompletedList(false), cc.tempId);
    ReadValid(c, CompletedList(true), cc.tempId);
    assert SameAt(c, r, DetailKey(cc.tempId));
    ValidAfterWrites(c, r, cc.tempId);
  }

  /** A failed update writes back valid list and detail snapshots only. */
  lemma UpdateOnErrorValid(c: Cache, id: int, uc: UpdateContext)
    requires CacheValid(c)
    requires ValidSnapshot(uc.previousAll) && ValidSnapshot(uc.previousActive) && ValidSnapshot(uc.previousCompleted)
    requires uc.previousTodo.Some? ==> ValidTodo(uc.previousTodo.value)
    ensures CacheValid(UpdateOnError(c, id, uc))
  {
    ReadValid(c, AllTodos, id);
    ReadValid(c, CompletedList(false), id);
    ReadValid(c, CompletedList(true), id);
    ValidAfterWrites(c, UpdateOnError(c, id, uc), id);
  }

  /** A failed delete writes back valid list snapshots only. */
  lemma DeleteOnErrorValid(c: Cache, id: int, dc: DeleteContext)
    requires CacheValid(c)
    requires ValidSnapshot(dc.previousAll) && ValidSnapshot(dc.previousActive) && ValidSnapshot(dc.previousCompleted)
    ensures CacheValid(DeleteOnError(c, id, dc))
  {
    var d := DeleteOnError(c, id, dc);
    ReadValid(c, AllTodos, id);
    ReadValid(c, CompletedList(false), id);
    ReadValid(c, CompletedList(true), id);
    assert SameAt(c, d, DetailKey(id));
    ValidAfterWrites(c, d, id);
  }

  /** Writing back valid snapshots keeps a valid cache valid, for every mutation. */
  lemma RollbackValid(c: Cache, id: int, cc: CreateContext, uc: UpdateContext, dc: DeleteContext)
    requires CacheValid(c)
    requires ValidSnapshot(cc.previousAll) && ValidSnapshot(cc.previousActive) && ValidSnapshot(cc.previousCompleted)
    requires ValidSnapshot(uc.previousAll) && ValidSnapshot(uc.previousActive) && ValidSnapshot(uc.previousCompleted)
    requires uc.previousTodo.Some? ==> ValidTodo(uc.previousTodo.value)
    requires ValidSnapshot(dc.previousAll) && ValidSnapshot(dc.previousActive) && ValidSnapshot(dc.previousCompleted)
    ensures CacheValid(CreateOnError(c, cc))
    ensures CacheValid(UpdateOnError(c, id, uc))
    ensures CacheValid(DeleteOnError(c, id, dc))
  {
    CreateOnErrorValid(c, cc);
    UpdateOnErrorValid(c, id, uc);
    DeleteOnErrorValid(c, id, dc);
  }

  // ---------------------------------------------------------------------------
  // Framing and toggle
  // ---------------------------------------------------------------------------

  /** No callback writes a user- or search-filtered list, or another todo's detail. */
  lemma OtherKeysUntouched(c: Cache, k: Key, id: int, input: CreateInput, tempId: int, server: Todo, p: Patch,
                           cc: CreateContext, uc: UpdateContext, dc: DeleteContext)
    requires UserOrSearchList(k) || (k.DetailKey? && k.id != id)
    ensures SameAt(c, CreateOnMutate(c, input, tempId).0, k)
    ensures SameAt(c, CreateOnSuccess(c, server, cc), k)
    ensures SameAt(c, CreateOnError(c, cc), k)
    ensures SameAt(c, UpdateOnMutate(c, id, p).0, k)
    ensures SameAt(c, UpdateOnSuccess(c, id, server, uc), k)
    ensures SameAt(c, UpdateOnError(c, id, uc), k)
    ensures SameAt(c, DeleteOnMutate(c, id).0, k)
    ensures SameAt(c, DeleteOnSuccess(c), k)
    ensures SameAt(c, DeleteOnError(c, id, dc), k)
  {
    OutsideWriteSet(k, id);
    assert k !in ListKeys();
  }

  /** The toggle's patch is valid and flips exactly `completed` in the cached detail. */
  lemma ToggleFlips(c: Cache, id: int)
    requires GetTodo(c, id).Some?
    ensures Toggle(c, id).Success?
    ensures ValidPatch(Toggle(c, id).value.data)
    ensures var cur := GetTodo(c, id).value;
            GetTodo(UpdateOnMutate(c, id, Toggle(c, id).value.data).0, id) == Some(cur.(completed := !cur.completed))
  {
  }
}

=== FILE: mutations.dfy ===
/**
 * The optimistic mutation callbacks of `useCreateTodo`, `useUpdateTodo`,
 * `useDeleteTodo` and `useToggleTodo`. Each `onMutate` snapshots the cached
 * lists it is about to change and writes the speculative result; `onSuccess`
 * reconciles with the server's todo; `onError` writes back every snapshot
 * that was defined. Every callback is a function from cache to cache.
 */
module Mutations {
  import opened Wrappers
  import opened Schema
  import opened TodoSeq
  import opened QueryKeys
  import opened QueryCache

  // ---------------------------------------------------------------------------
  // Relations between a list entry before and after a callback. `None` is an
  // absent entry.
  // ---------------------------------------------------------------------------

  /** `after` is `[t, ...before]`, or `[t]` when there was no list. */
  ghost predicate Prepended(before: Option<seq<Todo>>, after: Option<seq<Todo>>, t: Todo) {
    && after.Some?
    && |after.value| == |before.GetOr([])| + 1
    && after.value[0] == t
    && after.value[1..] == before.GetOr([])
  }

  /** An absent list stays absent; a present one has `id`'s elements replaced by `t`. */
  ghost predicate ListReplaced(before: Option<seq<Todo>>, after: Option<seq<Todo>>, id: int, t: Todo) {
    && (before.None? <==> after.None?)
    && (before.Some? ==> ReplacedById(before.value, after.value, id, t))
  }

  /** An absent list becomes `[t]`; a present one has `id`'s elements replaced by `t`. */
  ghost predicate ListReconciled(before: Option<seq<Todo>>, after: Option<seq<Todo>>, id: int, t: Todo) {
    && after.Some?
    && (before.None? ==> after.value == [t])
    && (before.Some? ==> ReplacedById(before.value, after.value, id, t))
  }

  /** An absent list stays absent; a present one has `p` merged into `id`'s elements. */
  ghost predicate ListPatched(before: Option<seq<Todo>>, after: Option<seq<Todo>>, id: int, p: Patch) {
    && (before.None? <==> after.None?)
    && (before.Some? ==> PatchedById(before.value, after.value, id, p))
  }

  /** An absent list stays absent; a present one loses exactly `id`'s elements. */
  ghost predicate ListRemoved(before: Option<seq<Todo>>, after: Option<seq<Todo>>, id: int) {
    && (before.None? <==> after.None?)
    && (before.Some? ==> RemovedById(before.value, after.value, id))
  }

  /**
   * An absent list becomes `[t]`; a present one holding `id` has those
   * elements replaced by `t`; a present one without `id` gets `t` in front.
   */
  ghost predicate ListUpserted(before: Option<seq<Todo>>, after: Option<seq<Todo>>, id: int, t: Todo) {
    && after.Some?
    && (before.None? ==> after.value == [t])
    && (before.Some? && HasId(before.value, id) ==> ReplacedById(before.value, after.value, id, t))
    && (before.Some? && !HasId(before.value, id) ==> after.value == [t] + before.value)
  }

  /**
   * After a rollback, key `k` holds its snapshot when the snapshot was
   * defined, and is left as it was otherwise.
   */
  ghost predicate Restored(c: Cache, r: Cache, k: Key, snapshot: Option<seq<Todo>>) {
    if snapshot.Some? then GetList(r, k) == snapshot else SameAt(c, r, k)
  }

  /**
   * Set the unfiltered and the two filtered lists in one go (`None` leaves a
   * list without data). Each callback's updaters read only their own key, so
   * the three writes do not see each other.
   */
  function WriteLists(c: Cache, all: Option<seq<Todo>>, active: Option<seq<Todo>>, completed: Option<seq<Todo>>): (r: Cache)
    ensures GetList(r, AllTodos) == all
    ensures GetList(r, CompletedList(false)) == active
    ensures GetList(r, CompletedList(true)) == completed
    ensures UnchangedExcept(c, r, ListKeys())
    ensures WellTyped(c) ==> WellTyped(r)
  {
    var c1 := SetList(c, AllTodos, all);
    var c2 := SetList(c1, CompletedList(false), active);
    var c3 := SetList(c2, CompletedList(true), completed);
    UnchangedTrans(c, c1, c2, {AllTodos}, {CompletedList(false)});
    UnchangedTrans(c, c2, c3, {AllTodos} + {CompletedList(false)}, {CompletedList(true)});
    assert SameAt(c2, c3, AllTodos) && SameAt(c1, c2, AllTodos) && SameAt(c2, c3, CompletedList(false));
    c3
  }

  /** Write back each defined snapshot; shared by every `onError`. */
  function RestoreLists(c: Cache, all: Option<seq<Todo>>, active: Option<seq<Todo>>, completed: Option<seq<Todo>>): (r: Cache)
    ensures Restored(c, r, AllTodos, all)
    ensures Restored(c, r, CompletedList(false), active)
    ensures Restored(c, r, CompletedList(true), completed)
    ensures UnchangedExcept(c, r, ListKeys())
    ensures WellTyped(c) ==> WellTyped(r)
  {
    var c1 := if all.Some? then SetList(c, AllTodos, all) else c;
    var c2 := if active.Some? then SetList(c1, CompletedList(false), active) else c1;
    var c3 := if completed.Some? then SetList(c2, CompletedList(true), completed) else c2;
    assert UnchangedExcept(c, c1, {AllTodos});
    assert UnchangedExcept(c1, c2, {CompletedList(false)});
    assert UnchangedExcept(c2, c3, {CompletedList(true)});
    UnchangedTrans(c, c1, c2, {AllTodos}, {CompletedList(false)});
    UnchangedTrans(c, c2, c3, {AllTodos} + {CompletedList(false)}, {CompletedList(true)});
    assert SameAt(c2, c3, AllTodos) && SameAt(c1, c2, AllTodos) && SameAt(c2, c3, CompletedList(false));
    c3
  }

  // ---------------------------------------------------------------------------
  // useCreateTodo
  // ---------------------------------------------------------------------------

  /** The snapshots `onMutate` hands to `onSuccess` and `onError`. */
  datatype CreateContext = CreateContext(
    previousAll: Option<seq<Todo>>,
    previousActive: Option<seq<Todo>>,
    previousCompleted: Option<seq<Todo>>,
    tempId: int)

  /**
   * `{ ...newTodoData, id: tempId }`: the payload's fields under the
   * temporary id; a schema-valid payload and a positive id give a valid todo.
   */
  function Placeholder(input: CreateInput, tempId: int): (t: Todo)
    ensures t.id == tempId
    ensures t.userId == input.userId && t.title == input.title && t.completed == input.completed
    ensures ValidTodo(t) <==> ValidCreate(input) && PositiveInt(tempId)
  {
    Todo(input.userId, tempId, input.title, input.completed)
  }

  /** `old ? [t, ...old] : [t]` */
  function PrependTo(v: Option<seq<Todo>>, t: Todo): (r: seq<Todo>)
    ensures Prepended(v, Some(r), t)
  {
    [t] + v.GetOr([])
  }

  /**
   * `onMutate` of `useCreateTodo`: the placeholder goes in front of the
   * unfiltered list and of the filtered list matching its `completed`;
   * nothing else is written.
   */
  function CreateOnMutate(c: Cache, input: CreateInput, tempId: int): (r: (Cache, CreateContext))
    ensures r.1 == CreateContext(GetList(c, AllTodos), GetList(c, CompletedList(false)),
                                 GetList(c, CompletedList(true)), tempId)
    ensures Prepended(GetList(c, AllTodos), GetList(r.0, AllTodos), Placeholder(input, tempId))
    ensures Prepended(GetList(c, CompletedList(input.completed)), GetList(r.0, CompletedList(input.completed)),
                      Placeholder(input, tempId))
    ensures SameAt(c, r.0, CompletedList(!input.completed))
    ensures UnchangedExcept(c, r.0, {AllTodos, CompletedList(input.completed)})
    ensures WellTyped(c) ==> WellTyped(r.0)
  {
    var ctx := CreateContext(GetList(c, AllTodos), GetList(c, CompletedList(false)),
                             GetList(c, CompletedList(true)), tempId);
    var t := Placeholder(input, tempId);
    var c1 := SetList(c, AllTodos, Some(PrependTo(GetList(c, AllTodos), t)));
    var c2 :=
      if !input.completed then SetList(c1, CompletedList(false), Some(PrependTo(GetList(c1, CompletedList(false)), t)))
      else SetList(c1, CompletedList(true), Some(PrependTo(GetList(c1, CompletedList(true)), t)));
    (c2, ctx)
  }

  /** `old ? old.map(x => x.id === id ? t : x) : [t]` */
  function ReconcileList(v: Option<seq<Todo>>, id: int, t: Todo): (r: seq<Todo>)
    ensures ListReconciled(v, Some(r), id, t)
  {
    if v.None? then [t] else ReplaceById(v.value, id, t)
  }

  /**
   * `onSuccess` of `useCreateTodo`: in the unfiltered list and in the filtered
   * list matching the server todo's `completed`, the placeholder's id is
   * replaced by the server todo; an absent list becomes `[created]`.
   */
  function CreateOnSuccess(c: Cache, created: Todo, ctx: CreateContext): (r: Cache)
    ensures ListReconciled(GetList(c, AllTodos), GetList(r, AllTodos), ctx.tempId, created)
    ensures ListReconciled(GetList(c, CompletedList(created.completed)), GetList(r, CompletedList(created.completed)),
                           ctx.tempId, created)
    ensures UnchangedExcept(c, r, {AllTodos, CompletedList(created.completed)})
    ensures WellTyped(c) ==> WellTyped(r)
  {
    var c1 := SetList(c, AllTodos, Some(ReconcileList(GetList(c, AllTodos), ctx.tempId, created)));
    if !created.completed then
      SetList(c1, CompletedList(false), Some(ReconcileList(GetList(c1, CompletedList(false)), ctx.tempId, created)))
    else
      SetList(c1, CompletedList(true), Some(ReconcileList(GetList(c1, CompletedList(true)), ctx.tempId, created)))
  }

  /** `onError` of `useCreateTodo`: every defined list snapshot is written back. */
  function CreateOnError(c: Cache, ctx: CreateContext): (r: Cache)
    ensures Restored(c, r, AllTodos, ctx.previousAll)
    ensures Restored(c, r, CompletedList(false), ctx.previousActive)
    ensures Restored(c, r, CompletedList(true), ctx.previousCompleted)
    ensures UnchangedExcept(c, r, ListKeys())
    ensures WellTyped(c) ==> WellTyped(r)
  {
    RestoreLists(c, ctx.previousAll, ctx.previousActive, ctx.previousCompleted)
  }

  // ---------------------------------------------------------------------------
  // useUpdateTodo
  // ---------------------------------------------------------------------------

  datatype UpdateContext = UpdateContext(
    previousAll: Option<seq<Todo>>,
    previousActive: Option<seq<Todo>>,
    previousCompleted: Option<seq<Todo>>,
    previousTodo: Option<Todo>)

  /** `updateTodoInArray` */
  function PatchList(v: Option<seq<Todo>>, id: int, p: Patch): (r: Option<seq<Todo>>)
    ensures ListPatched(v, r, id, p)
  {
    if v.None? then None else Some(PatchById(v.value, id, p))
  }

  /**
   * `onMutate` of `useUpdateTodo`: the patch is merged into the target's
   * elements of every present list, and into the detail entry if it exists.
   */
  function UpdateOnMutate(c: Cache, id: int, p: Patch): (r: (Cache, UpdateContext))
    ensures r.1 == UpdateContext(GetList(c, AllTodos), GetList(c, CompletedList(false)),
                                 GetList(c, CompletedList(true)), GetTodo(c, id))
    ensures ListPatched(GetList(c, AllTodos), GetList(r.0, AllTodos), id, p)
    ensures ListPatched(GetList(c, CompletedList(false)), GetList(r.0, CompletedList(false)), id, p)
    ensures ListPatched(GetList(c, CompletedList(true)), GetList(r.0, CompletedList(true)), id, p)
    ensures GetTodo(c, id).Some? ==> GetTodo(r.0, id) == Some(Merge(GetTodo(c, id).value, p))
    ensures GetTodo(c, id).None? ==> SameAt(c, r.0, DetailKey(id))
    ensures UnchangedExcept(c, r.0, WriteSet(id))
    ensures WellTyped(c) ==> WellTyped(r.0)
  {
    var ctx := UpdateContext(GetList(c, AllTodos), GetList(c, CompletedList(false)),
                             GetList(c, CompletedList(true)), GetTodo(c, id));
    var c1 := WriteLists(c, PatchList(ctx.previousAll, id, p), PatchList(ctx.previousActive, id, p),
                         PatchList(ctx.previousCompleted, id, p));
    var c2 := if ctx.previousTodo.Some? then SetTodo(c1, id, Merge(ctx.previousTodo.value, p)) else c1;
    UnchangedTrans(c, c1, c2, ListKeys(), {DetailKey(id)});
    assert SameAt(c, c1, DetailKey(id));
    (c2, ctx)
  }

  /**
   * Whether the `completed` status changed: decided only by the first todo
   * carrying `id` in the snapshot of the unfiltered list. A missing snapshot
   * or a missing id count as "unchanged".
   */
  function CompletedChanged(previousAll: Option<seq<Todo>>, id: int, updated: Todo): (b: bool)
    ensures b ==> previousAll.Some? && HasId(previousAll.value, id)
    ensures previousAll.Some? && HasId(previousAll.value, id) ==>
              (b <==> FindById(previousAll.value, id).value.completed != updated.completed)
  {
    if previousAll.None? then false
    else
      match FindById(previousAll.value, id)
      case None => false
      case Some(previous) => previous.completed != updated.completed
  }

  /** `old ? old.map(x => x.id === id ? t : x) : undefined` */
  function ReplaceList(v: Option<seq<Todo>>, id: int, t: Todo): (r: Option<seq<Todo>>)
    ensures ListReplaced(v, r, id, t)
  {
    if v.None? then None else Some(ReplaceById(v.value, id, t))
  }

  /** `old ? old.filter(x => x.id !== id) : undefined` */
  function RemoveFromList(v: Option<seq<Todo>>, id: int): (r: Option<seq<Todo>>)
    ensures ListRemoved(v, r, id)
  {
    if v.None? then None else Some(RemoveById(v.value, id))
  }

  /** `old ? (old.some(...) ? old.map(...) : [t, ...old]) : [t]` */
  function UpsertList(v: Option<seq<Todo>>, id: int, t: Todo): (r: Option<seq<Todo>>)
    ensures ListUpserted(v, r, id, t)
  {
    if v.None? then Some([t]) else Some(Upsert(v.value, id, t))
  }

  /**
   * `onSuccess` of `useUpdateTodo`. The detail entry becomes the server todo.
   * When `completed` changed, the target leaves the filtered list it no
   * longer matches and is replaced or prepended in the one it now matches;
   * otherwise it is replaced in place in every present list.
   */
  function UpdateOnSuccess(c: Cache, id: int, updated: Todo, ctx: UpdateContext): (r: Cache)
    ensures GetTodo(r, id) == Some(updated)
    ensures ListReplaced(GetList(c, AllTodos), GetList(r, AllTodos), id, updated)
    ensures !CompletedChanged(ctx.previousAll, id, updated) ==>
              && ListReplaced(GetList(c, CompletedList(false)), GetList(r, CompletedList(false)), id, updated)
              && ListReplaced(GetList(c, CompletedList(true)), GetList(r, CompletedList(true)), id, updated)
    ensures CompletedChanged(ctx.previousAll, id, updated) ==>
              && ListRemoved(GetList(c, CompletedList(!updated.completed)), GetList(r, CompletedList(!updated.completed)), id)
              && ListUpserted(GetList(c, CompletedList(updated.completed)), GetList(r, CompletedList(updated.completed)), id, updated)
    ensures UnchangedExcept(c, r, WriteSet(id))
    ensures WellTyped(c) ==> WellTyped(r)
  {
    var c1 := SetTodo(c, id, updated);
    var all := GetList(c1, AllTodos);
    var active := GetList(c1, CompletedList(false));
    var completed := GetList(c1, CompletedList(true));
    var c2 :=
      if CompletedChanged(ctx.previousAll, id, updated) then
        if updated.completed then
          WriteLists(c1, ReplaceList(all, id, updated), RemoveFromList(active, id), UpsertList(completed, id, updated))
        else
          WriteLists(c1, ReplaceList(all, id, updated), UpsertList(active, id, updated), RemoveFromList(completed, id))
      else
        WriteLists(c1, ReplaceList(all, id, updated), ReplaceList(active, id, updated), ReplaceList(completed, id, updated));
    UnchangedTrans(c, c1, c2, {DetailKey(id)}, ListKeys());
    assert SameAt(c, c1, AllTodos) && SameAt(c, c1, CompletedList(false)) && SameAt(c, c1, CompletedList(true));
    assert SameAt(c1, c2, DetailKey(id));
    c2
  }

  /**
   * `onError` of `useUpdateTodo`: every defined list snapshot, and the detail
   * snapshot if defined, is written back.
   */
  function UpdateOnError(c: Cache, id: int, ctx: UpdateContext): (r: Cache)
    ensures Restored(c, r, AllTodos, ctx.previousAll)
    ensures Restored(c, r, CompletedList(false), ctx.previousActive)
    ensures Restored(c, r, CompletedList(true), ctx.previousCompleted)
    ensures ctx.previousTodo.Some? ==> GetTodo(r, id) == ctx.previousTodo
    ensures ctx.previousTodo.None? ==> SameAt(c, r, DetailKey(id))
    ensures UnchangedExcept(c, r, WriteSet(id))
    ensures WellTyped(c) ==> WellTyped(r)
  {
    var c1 := RestoreLists(c, ctx.previousAll, ctx.previousActive, ctx.previousCompleted);
    var c2 := if ctx.previousTodo.Some? then SetTodo(c1, id, ctx.previousTodo.value) else c1;
    UnchangedTrans(c, c1, c2, ListKeys(), {DetailKey(id)});
    assert SameAt(c, c1, DetailKey(id));
    assert SameAt(c1, c2, AllTodos) && SameAt(c1, c2, CompletedList(false)) && SameAt(c1, c2, CompletedList(true));
    c2
  }

  // ---------------------------------------------------------------------------
  // useDeleteTodo
  // ---------------------------------------------------------------------------

  datatype DeleteContext = DeleteContext(
    previousAll: Option<seq<Todo>>,
    previousActive: Option<seq<Todo>>,
    previousCompleted: Option<seq<Todo>>)

  /**
   * `onMutate` of `useDeleteTodo`: every present list loses the target's
   * elements and the detail entry is removed.
   */
  function DeleteOnMutate(c: Cache, id: int): (r: (Cache, DeleteContext))
    ensures r.1 == DeleteContext(GetList(c, AllTodos), GetList(c, CompletedList(false)), GetList(c, CompletedList(true)))
    ensures ListRemoved(GetList(c, AllTodos), GetList(r.0, AllTodos), id)
    ensures ListRemoved(GetList(c, CompletedList(false)), GetList(r.0, CompletedList(false)), id)
    ensures ListRemoved(GetList(c, CompletedList(true)), GetList(r.0, CompletedList(true)), id)
    ensures DetailKey(id) !in r.0
    ensures UnchangedExcept(c, r.0, WriteSet(id))
    ensures WellTyped(c) ==> WellTyped(r.0)
  {
    var ctx := DeleteContext(GetList(c, AllTodos), GetList(c, CompletedList(false)), GetList(c, CompletedList(true)));
    var c1 := WriteLists(c, RemoveFromList(ctx.previousAll, id), RemoveFromList(ctx.previousActive, id),
                         RemoveFromList(ctx.previousCompleted, id));
    var c2 := RemoveTodo(c1, id);
    UnchangedTrans(c, c1, c2, ListKeys(), {DetailKey(id)});
    (c2, ctx)
  }

  /** `onSuccess` of `useDeleteTodo` writes nothing. */
  function DeleteOnSuccess(c: Cache): (r: Cache)
    ensures UnchangedExcept(c, r, {})
  {
    c
  }

  /**
   * `onError` of `useDeleteTodo`: every defined list snapshot is written
   * back; the removed detail entry is not.
   */
  function DeleteOnError(c: Cache, id: int, ctx: DeleteContext): (r: Cache)
    ensures Restored(c, r, AllTodos, ctx.previousAll)
    ensures Restored(c, r, CompletedList(false), ctx.previousActive)
    ensures Restored(c, r, CompletedList(true), ctx.previousCompleted)
    ensures SameAt(c, r, DetailKey(id))
    ensures UnchangedExcept(c, r, ListKeys())
    ensures WellTyped(c) ==> WellTyped(r)
  {
    RestoreLists(c, ctx.previousAll, ctx.previousActive, ctx.previousCompleted)
  }

  // ---------------------------------------------------------------------------
  // useToggleTodo
  // ---------------------------------------------------------------------------

  /** The variables of an update mutation: `{ id, data }`. */
  datatype UpdateVariables = UpdateVariables(id: int, data: Patch)

  /** The error thrown when the todo to toggle is not in the cache. */
  datatype ToggleError = NotFoundInCache(id: int)

  /**
   * `useToggleTodo`'s mutation function: it fails when `detail(id)` holds no
   * todo, and otherwise issues an update that flips only `completed`.
   */
  function Toggle(c: Cache, id: int): (r: Result<UpdateVariables, ToggleError>)
    ensures r.Failure? <==> GetTodo(c, id).None?
    ensures r.Failure? ==> r.error == NotFoundInCache(id)
    ensures r.Success? ==> && r.value.id == id
                           && r.value.data.userId.None? && r.value.data.title.None?
                           && r.value.data.completed == Some(!GetTodo(c, id).value.completed)
  {
    match GetTodo(c, id)
    case None => Failure(NotFoundInCache(id))
    case Some(current) => Success(UpdateVariables(id, Patch(None, None, Some(!current.completed))))
  }
}

=== FILE: query_cache.dfy ===
/**
 * The query cache as the mutation callbacks see it: a map from query key to
 * the key's data, with `getQueryData`, `setQueryData` and `removeQueries`.
 * A key missing from the map reads as `undefined`.
 */
module QueryCache {
  import opened Wrappers
  import opened Schema
  import opened QueryKeys

  /** The data held under a key: a list of todos or a single todo. */
  datatype Data = Many(todos: seq<Todo>) | One(todo: Todo)

  type Cache = map<Key, Data>

  /** `getQueryData<Todo[]>(k)` */
  function GetList(c: Cache, k: Key): Option<seq<Todo>> {
    if k in c && c[k].Many? then Some(c[k].todos) else None
  }

  /** `getQueryData<Todo>(todoKeys.detail(id))` */
  function GetTodo(c: Cache, id: int): Option<Todo> {
    if DetailKey(id) in c && c[DetailKey(id)].One? then Some(c[DetailKey(id)].todo) else None
  }

  /** Key `k` holds the same thing, or nothing, in both caches. */
  predicate SameAt(c: Cache, c': Cache, k: Key) {
    (k in c <==> k in c') && (k in c ==> c[k] == c'[k])
  }

  /** Every key outside `ks` is unchanged from `c` to `c'`. */
  ghost predicate UnchangedExcept(c: Cache, c': Cache, ks: set<Key>) {
    forall k :: k !in ks ==> SameAt(c, c', k)
  }

  /**
   * `setQueryData<Todo[]>(k, v)`. Writing `undefined` leaves the key without
   * data, which reads back like a key that was never set.
   */
  function SetList(c: Cache, k: Key, v: Option<seq<Todo>>): (r: Cache)
    ensures GetList(r, k) == v
    ensures v.Some? ==> k in r
    ensures v.None? ==> k !in r
    ensures UnchangedExcept(c, r, {k})
    ensures WellTyped(c) && k.ListKey? ==> WellTyped(r)
  {
    match v
    case Some(s) => c[k := Many(s)]
    case None => c - {k}
  }

  /** `setQueryData<Todo>(todoKeys.detail(id), t)` */
  function SetTodo(c: Cache, id: int, t: Todo): (r: Cache)
    ensures GetTodo(r, id) == Some(t)
    ensures UnchangedExcept(c, r, {DetailKey(id)})
    ensures WellTyped(c) ==> WellTyped(r)
  {
    c[DetailKey(id) := One(t)]
  }

  /** `removeQueries(todoKeys.detail(id))` */
  function RemoveTodo(c: Cache, id: int): (r: Cache)
    ensures DetailKey(id) !in r
    ensures UnchangedExcept(c, r, {DetailKey(id)})
    ensures WellTyped(c) ==> WellTyped(r)
  {
    c - {DetailKey(id)}
  }

  /** Frames compose: what two steps leave alone, their sequence leaves alone. */
  lemma UnchangedTrans(a: Cache, b: Cache, c: Cache, ks1: set<Key>, ks2: set<Key>)
    requires UnchangedExcept(a, b, ks1) && UnchangedExcept(b, c, ks2)
    ensures UnchangedExcept(a, c, ks1 + ks2)
  {
    forall k | k !in ks1 + ks2 ensures SameAt(a, c, k) {
      assert SameAt(a, b, k) && SameAt(b, c, k);
    }
  }

  /** List keys hold lists and detail keys hold single todos. */
  ghost predicate WellTyped(c: Cache) {
    forall k :: k in c ==> (k.ListKey? <==> c[k].Many?)
  }

  /** In a well-typed cache a list key is present exactly when it reads as a list. */
  lemma WellTypedList(c: Cache, k: Key)
    requires WellTyped(c) && k.ListKey?
    ensures k in c <==> GetList(c, k).Some?
    ensures k in c ==> c[k] == Many(GetList(c, k).value)
  {
  }

  /** Two caches that agree at every key are equal. */
  lemma Extensional(c: Cache, c': Cache)
    requires forall k :: SameAt(c, c', k)
    ensures c == c'
  {
    assert c.Keys == c'.Keys by {
      forall k | k in c ensures k in c' { assert SameAt(c, c', k); }
      forall k | k in c' ensures k in c { assert SameAt(c, c', k); }
    }
    forall k | k in c ensures c[k] == c'[k] { assert SameAt(c, c', k); }
  }

  /** Every todo the data holds is schema-valid. */
  ghost predicate DataValid(d: Data) {
    match d
    case Many(s) => forall i :: 0 <= i < |s| ==> ValidTodo(s[i])
    case One(t) => ValidTodo(t)
  }

  /** The cache is well typed and holds only schema-valid todos. */
  ghost predicate CacheValid(c: Cache) {
    WellTyped(c) && forall k :: k in c ==> DataValid(c[k])
  }

  /** An optional list whose todos are all schema-valid. */
  ghost predicate ValidSnapshot(v: Option<seq<Todo>>) {
    v.Some? ==> forall i :: 0 <= i < |v.value| ==> ValidTodo(v.value[i])
  }

  /** Every todo of a list read from a valid cache is valid. */
  lemma ReadValid(c: Cache, k: Key, id: int)
    requires CacheValid(c)
    ensures ValidSnapshot(GetList(c, k))
    ensures GetTodo(c, id).Some? ==> ValidTodo(GetTodo(c, id).value)
  {
    if GetList(c, k).Some? {
      assert DataValid(c[k]);
    }
    if GetTodo(c, id).Some? {
      assert DataValid(c[DetailKey(id)]);
    }
  }
}

=== FILE: query_keys.dfy ===
/**
 * The query keys of `todoKeys`: every key is an array path below `['todos']`,
 * list keys below `['todos', 'list']` and detail keys below
 * `['todos', 'detail']`. The cache compares keys structurally.
 */
module QueryKeys {
  import opened Wrappers

  /** The optional filter object of a list key; an absent property is `None`. */
  datatype Filter = Filter(userId: Option<int>, completed: Option<bool>, search: Option<string>)

  /**
   * `todoKeys.list(filters)` or `todoKeys.detail(id)`. `ListKey(None)` is
   * `list()` with no filter object, which is a different key from
   * `list({})`, `ListKey(Some(Filter(None, None, None)))`.
   */
  datatype Key = ListKey(filter: Option<Filter>) | DetailKey(id: int)

  /** One element of a key's array form. */
  datatype Segment = Name(name: string) | FilterSegment(filter: Option<Filter>) | IdSegment(id: int)

  /** `todoKeys.all` */
  function AllPrefix(): seq<Segment> { [Name("todos")] }

  /** `todoKeys.lists()` */
  function ListsPrefix(): seq<Segment> { AllPrefix() + [Name("list")] }

  /** `todoKeys.details()` */
  function DetailsPrefix(): seq<Segment> { AllPrefix() + [Name("detail")] }

  /** The array form of a key, as `todoKeys` builds it. */
  function Path(k: Key): (p: seq<Segment>)
    ensures AllPrefix() <= p
    ensures k.ListKey? ==> ListsPrefix() <= p && |p| == |ListsPrefix()| + 1
    ensures k.DetailKey? ==> DetailsPrefix() <= p && |p| == |DetailsPrefix()| + 1
  {
    match k
    case ListKey(f) => ListsPrefix() + [FilterSegment(f)]
    case DetailKey(id) => DetailsPrefix() + [IdSegment(id)]
  }

  /** Structural equality of the array forms is equality of keys. */
  lemma PathInjective(k1: Key, k2: Key)
    ensures Path(k1) == Path(k2) <==> k1 == k2
  {
    if Path(k1) == Path(k2) {
      assert Path(k1)[1] == Path(k2)[1];
      assert Path(k1)[2] == Path(k2)[2];
    }
  }

  /** No key lies under both the `lists()` and the `details()` prefix. */
  lemma PrefixesDisjoint(k: Key)
    ensures ListsPrefix() <= Path(k) <==> k.ListKey?
    ensures DetailsPrefix() <= Path(k) <==> k.DetailKey?
  {
    assert Path(k)[1] == if k.ListKey? then Name("list") else Name("detail");
    assert ListsPrefix()[1] == Name("list");
    assert DetailsPrefix()[1] == Name("detail");
  }

  /** `todoKeys.list()`: the unfiltered list. */
  const AllTodos: Key := ListKey(None)

  /** `todoKeys.list({ completed: b })` */
  function CompletedList(b: bool): Key {
    ListKey(Some(Filter(None, Some(b), None)))
  }

  /** The keys of the unfiltered and the two completion-filtered lists. */
  function ListKeys(): set<Key> {
    {AllTodos, CompletedList(false), CompletedList(true)}
  }

  /** The keys the mutation callbacks may write for target `id`. */
  function WriteSet(id: int): set<Key> {
    ListKeys() + {DetailKey(id)}
  }

  /** A list key filtered by user or by search text: never written by a mutation. */
  predicate UserOrSearchList(k: Key) {
    k.ListKey? && k.filter.Some? && (k.filter.value.userId.Some? || k.filter.value.search.Some?)
  }

  /** User- and search-filtered lists, and other ids' details, are outside every write set. */
  lemma OutsideWriteSet(k: Key, id: int)
    requires UserOrSearchList(k) || (k.DetailKey? && k.id != id)
    ensures k !in WriteSet(id)
  {
  }
}

=== FILE: schema.dfy ===
/**
 * The record validation rules of `todoSchema.ts`: what counts as a
 * well-formed todo, create payload and update patch.
 */
module Schema {
  import opened Wrappers

  /** A todo as the remote service stores it (the `Todo` shape). */
  datatype Todo = Todo(userId: int, id: int, title: string, completed: bool)

  /**
   * A decoded JSON object before validation. A field the payload does not
   * carry is `None`; values of the wrong JSON type are not represented.
   */
  datatype RawTodo = RawTodo(userId: Option<int>, id: Option<int>, title: Option<string>, completed: Option<bool>)

  /** The payload of a create request (the `CreateTodoInput` shape): no `id`. */
  datatype CreateInput = CreateInput(userId: int, title: string, completed: bool)

  /** A partial update (the `UpdateTodoInput` shape): every field may be absent. */
  datatype Patch = Patch(userId: Option<int>, title: Option<string>, completed: Option<bool>)

  datatype Field = UserIdField | IdField | TitleField | CompletedField

  /**
   * One validation failure. `message` is the custom message the schema gives,
   * or `None` where the validator library's default text applies.
   */
  datatype Issue = Issue(field: Field, message: Option<string>)

  /** The one custom message of the schemas. */
  const TitleRequired: string := "Title is required"

  /** `z.number().int().positive()` */
  predicate PositiveInt(n: int) { n > 0 }

  /** `z.string().min(1, ...)`: nothing but the length is inspected. */
  predicate NonEmptyTitle(s: string) { |s| >= 1 }

  predicate ValidTodo(t: Todo) {
    PositiveInt(t.userId) && PositiveInt(t.id) && NonEmptyTitle(t.title)
  }

  predicate ValidCreate(c: CreateInput) {
    PositiveInt(c.userId) && NonEmptyTitle(c.title)
  }

  predicate ValidPatch(p: Patch) {
    && (p.userId.Some? ==> PositiveInt(p.userId.value))
    && (p.title.Some? ==> NonEmptyTitle(p.title.value))
  }

  /** The set of fields named by a list of issues. */
  function Fields(issues: seq<Issue>): set<Field> {
    if issues == [] then {} else {issues[0].field} + Fields(issues[1..])
  }

  /** Whether field `f` of `raw` passes its `todoSchema` rule (every field required). */
  predicate TodoFieldOk(raw: RawTodo, f: Field) {
    match f
    case UserIdField => raw.userId.Some? && PositiveInt(raw.userId.value)
    case IdField => raw.id.Some? && PositiveInt(raw.id.value)
    case TitleField => raw.title.Some? && NonEmptyTitle(raw.title.value)
    case CompletedField => raw.completed.Some?
  }

  /** Whether field `f` of `raw` passes its `createTodoSchema` rule (`id` is not part of it). */
  predicate CreateFieldOk(raw: RawTodo, f: Field) {
    match f
    case UserIdField => raw.userId.Some? && PositiveInt(raw.userId.value)
    case IdField => true
    case TitleField => raw.title.Some? && NonEmptyTitle(raw.title.value)
    case CompletedField => true
  }

  /** Whether field `f` of `raw` passes its `updateTodoSchema` rule (every field optional). */
  predicate UpdateFieldOk(raw: RawTodo, f: Field) {
    match f
    case UserIdField => raw.userId.None? || PositiveInt(raw.userId.value)
    case IdField => true
    case TitleField => raw.title.None? || NonEmptyTitle(raw.title.value)
    case CompletedField => true
  }

  /** `{f}` when field `f` fails its rule, `{}` when it passes. */
  function Flag(ok: bool, f: Field): set<Field> {
    if ok then {} else {f}
  }

  /** The fields of `raw` that break the todo schema. */
  function TodoFailing(raw: RawTodo): set<Field> {
    Flag(TodoFieldOk(raw, UserIdField), UserIdField) + Flag(TodoFieldOk(raw, IdField), IdField)
    + Flag(TodoFieldOk(raw, TitleField), TitleField) + Flag(TodoFieldOk(raw, CompletedField), CompletedField)
  }

  /** The fields of `raw` that break the create schema. */
  function CreateFailing(raw: RawTodo): set<Field> {
    Flag(CreateFieldOk(raw, UserIdField), UserIdField) + Flag(CreateFieldOk(raw, IdField), IdField)
    + Flag(CreateFieldOk(raw, TitleField), TitleField) + Flag(CreateFieldOk(raw, CompletedField), CompletedField)
  }

  /** The fields of `raw` that break the update schema. */
  function UpdateFailing(raw: RawTodo): set<Field> {
    Flag(UpdateFieldOk(raw, UserIdField), UserIdField) + Flag(UpdateFieldOk(raw, IdField), IdField)
    + Flag(UpdateFieldOk(raw, TitleField), TitleField) + Flag(UpdateFieldOk(raw, CompletedField), CompletedField)
  }

  /** Issues of a positive-integer field; `required` says whether a missing value is one. */
  function IntIssues(f: Field, v: Option<int>, required: bool): seq<Issue> {
    match v
    case None => if required then [Issue(f, None)] else []
    case Some(n) => if PositiveInt(n) then [] else [Issue(f, None)]
  }

  /** Issues of the title field: a present but empty title carries the custom message. */
  function TitleIssues(v: Option<string>, required: bool): seq<Issue> {
    match v
    case None => if required then [Issue(TitleField, None)] else []
    case Some(s) => if NonEmptyTitle(s) then [] else [Issue(TitleField, Some(TitleRequired))]
  }

  /** Issues of the completed field, which only a missing value can fail. */
  function BoolIssues(v: Option<bool>, required: bool): seq<Issue> {
    if v.None? && required then [Issue(CompletedField, None)] else []
  }

  lemma {:induction false} FieldsConcat(a: seq<Issue>, b: seq<Issue>)
    ensures Fields(a + b) == Fields(a) + Fields(b)
  {
    if a != [] {
      assert (a + b)[1..] == a[1..] + b;
      FieldsConcat(a[1..], b);
    } else {
      assert a + b == b;
    }
  }

  /** `todoSchema.parse`: a validated todo, or the issues naming every offending field. */
  function ParseTodo(raw: RawTodo): (r: Result<Todo, seq<Issue>>)
    ensures r.Success? <==> TodoFailing(raw) == {}
    ensures r.Success? ==> ValidTodo(r.value)
    ensures r.Success? ==> && raw.userId == Some(r.value.userId) && raw.id == Some(r.value.id)
                           && raw.title == Some(r.value.title) && raw.completed == Some(r.value.completed)
    ensures r.Failure? ==> Fields(r.error) == TodoFailing(raw)
    ensures r.Failure? && raw.title == Some("") ==> Issue(TitleField, Some(TitleRequired)) in r.error
  {
    var a := IntIssues(UserIdField, raw.userId, true);
    var b := IntIssues(IdField, raw.id, true);
    var c := TitleIssues(raw.title, true);
    var d := BoolIssues(raw.completed, true);
    var issues := a + b + c + d;
    FieldsConcat(a, b);
    FieldsConcat(a + b, c);
    FieldsConcat(a + b + c, d);
    assert Fields(issues) == TodoFailing(raw) by {
      assert Fields(a) == if TodoFieldOk(raw, UserIdField) then {} else {UserIdField};
      assert Fields(b) == if TodoFieldOk(raw, IdField) then {} else {IdField};
      assert Fields(c) == if TodoFieldOk(raw, TitleField) then {} else {TitleField};
      assert Fields(d) == if TodoFieldOk(raw, CompletedField) then {} else {CompletedField};
    }
    if issues == [] then
      Success(Todo(raw.userId.value, raw.id.value, raw.title.value, raw.completed.value))
    else
      assert issues[0].field in Fields(issues);
      assert raw.title == Some("") ==> c[0] == issues[|a + b|];
      Failure(issues)
  }

  /**
   * `createTodoSchema.parse`: any `id` in the payload is dropped, and a missing
   * `completed` defaults to false.
   */
  function ParseCreate(raw: RawTodo): (r: Result<CreateInput, seq<Issue>>)
    ensures r.Success? <==> CreateFailing(raw) == {}
    ensures r.Success? ==> ValidCreate(r.value)
    ensures r.Success? ==> raw.userId == Some(r.value.userId) && raw.title == Some(r.value.title)
    ensures r.Success? ==> r.value.completed == (raw.completed.Some? && raw.completed.value)
    ensures r.Failure? ==> Fields(r.error) == CreateFailing(raw)
    ensures r.Failure? && raw.title == Some("") ==> Issue(TitleField, Some(TitleRequired)) in r.error
  {
    var a := IntIssues(UserIdField, raw.userId, true);
    var c := TitleIssues(raw.title, true);
    var issues := a + c;
    FieldsConcat(a, c);
    assert Fields(issues) == CreateFailing(raw) by {
      assert Fields(a) == if CreateFieldOk(raw, UserIdField) then {} else {UserIdField};
      assert Fields(c) == if CreateFieldOk(raw, TitleField) then {} else {TitleField};
    }
    if issues == [] then
      Success(CreateInput(raw.userId.value, raw.title.value, raw.completed.GetOr(false)))
    else
      assert issues[0].field in Fields(issues);
      Failure(issues)
  }

  /** `updateTodoSchema.parse`: every field optional, any `id` dropped. */
  function ParseUpdate(raw: RawTodo): (r: Result<Patch, seq<Issue>>)
    ensures r.Success? <==> UpdateFailing(raw) == {}
    ensures r.Success? ==> ValidPatch(r.value)
    ensures r.Success? ==> r.value == Patch(raw.userId, raw.title, raw.completed)
    ensures r.Failure? ==> Fields(r.error) == UpdateFailing(raw)
    ensures r.Failure? && raw.title == Some("") ==> Issue(TitleField, Some(TitleRequired)) in r.error
  {
    var a := IntIssues(UserIdField, raw.userId, false);
    var c := TitleIssues(raw.title, false);
    var issues := a + c;
    FieldsConcat(a, c);
    assert Fields(issues) == UpdateFailing(raw) by {
      assert Fields(a) == if UpdateFieldOk(raw, UserIdField) then {} else {UserIdField};
      assert Fields(c) == if UpdateFieldOk(raw, TitleField) then {} else {TitleField};
    }
    if issues == [] then
      Success(Patch(raw.userId, raw.title, raw.completed))
    else
      assert issues[0].field in Fields(issues);
      Failure(issues)
  }

  /** `{ ...todo, ...patch }`: the fields the patch carries overwrite the todo's. */
  function Merge(t: Todo, p: Patch): (r: Todo)
    ensures r.id == t.id
    ensures p.userId.Some? ==> r.userId == p.userId.value
    ensures p.userId.None? ==> r.userId == t.userId
    ensures p.title.Some? ==> r.title == p.title.value
    ensures p.title.None? ==> r.title == t.title
    ensures p.completed.Some? ==> r.completed == p.completed.value
    ensures p.completed.None? ==> r.completed == t.completed
  {
    Todo(p.userId.GetOr(t.userId), t.id, p.title.GetOr(t.title), p.completed.GetOr(t.completed))
  }

  /** Merging a valid patch into a valid todo gives a valid todo with the same id. */
  lemma MergeKeepsValid(t: Todo, p: Patch)
    requires ValidTodo(t) && ValidPatch(p)
    ensures ValidTodo(Merge(t, p)) && Merge(t, p).id == t.id
  {
  }

  /** The empty patch validates and changes nothing. */
  lemma EmptyPatch(t: Todo)
    ensures ParseUpdate(RawTodo(None, None, None, None)) == Success(Patch(None, None, None))
    ensures Merge(t, Patch(None, None, None)) == t
  {
  }

  /** Applying the same patch twice is the same as applying it once. */
  lemma MergeIdempotent(t: Todo, p: Patch)
    ensures Merge(Merge(t, p), p) == Merge(t, p)
  {
  }

  /** The title rule is length only: a title of one blank character passes. */
  lemma BlankTitleAccepted(userId: int, id: int, completed: bool)
    requires PositiveInt(userId) && PositiveInt(id)
    ensures ParseTodo(RawTodo(Some(userId), Some(id), Some(" "), Some(completed))).Success?
    ensures ParseTodo(RawTodo(Some(userId), Some(id), Some(""), Some(completed)))
            == Failure([Issue(TitleField, Some(TitleRequired))])
  {
    var raw := RawTodo(Some(userId), Some(id), Some(""), Some(completed));
    assert IntIssues(UserIdField, raw.userId, true) == [];
    assert IntIssues(IdField, raw.id, true) == [];
    assert BoolIssues(raw.completed, true) == [];
    assert [] + [] + [Issue(TitleField, Some(TitleRequired))] + [] == [Issue(TitleField, Some(TitleRequired))];
  }

  /** The create schema ignores whatever `id` the payload carries. */
  lemma CreateIgnoresId(raw: RawTodo, id: Option<int>)
    ensures ParseCreate(raw) == ParseCreate(raw.(id := id))
  {
  }

  /** A payload that passes the todo schema also passes the create and update schemas. */
  lemma TodoPassesOtherSchemas(raw: RawTodo)
    requires ParseTodo(raw).Success?
    ensures ParseCreate(raw) == Success(CreateInput(raw.userId.value, raw.title.value, raw.completed.value))
    ensures ParseUpdate(raw) == Success(Patch(raw.userId, raw.title, raw.completed))
  {
    assert TodoFieldOk(raw, UserIdField) && TodoFieldOk(raw, TitleField);
  }
}

=== FILE: todo_seq.dfy ===
/**
 * The array manipulations the mutation callbacks perform on cached lists:
 * map-replace by id, patch by id, filter-out by id, find by id and
 * insert-or-replace. Each comes with a relational description of its result.
 */
module TodoSeq {
  import opened Wrappers
  import opened Schema

  /** `s.some(t => t.id === id)` */
  predicate HasId(s: seq<Todo>, id: int) {
    exists i :: 0 <= i < |s| && s[i].id == id
  }

  /** How many elements of `s` carry `id`. */
  function CountId(s: seq<Todo>, id: int): (n: nat)
    ensures n <= |s|
    ensures n == 0 <==> !HasId(s, id)
  {
    if s == [] then 0
    else (if s[0].id == id then 1 else 0) + CountId(s[1..], id)
  }

  /** `a` is `b` with some elements dropped, the rest in their original order. */
  predicate SubsequenceOf<T(==)>(a: seq<T>, b: seq<T>)
    decreases |b|
  {
    if a == [] then true
    else if b == [] then false
    else (a[0] == b[0] && SubsequenceOf(a[1..], b[1..])) || SubsequenceOf(a, b[1..])
  }

  /** `after` is `before` with every element carrying `id` replaced by `t`, in place. */
  ghost predicate ReplacedById(before: seq<Todo>, after: seq<Todo>, id: int, t: Todo) {
    && |after| == |before|
    && forall i :: 0 <= i < |before| ==> after[i] == (if before[i].id == id then t else before[i])
  }

  /** `after` is `before` with `p` merged into every element carrying `id`, in place. */
  ghost predicate PatchedById(before: seq<Todo>, after: seq<Todo>, id: int, p: Patch) {
    && |after| == |before|
    && forall i :: 0 <= i < |before| ==> after[i] == (if before[i].id == id then Merge(before[i], p) else before[i])
  }

  /**
   * `after` is `before` without the elements carrying `id`: it keeps the relative
   * order of `before`, carries no `id`, and is exactly the number of `id`
   * occurrences shorter.
   */
  ghost predicate RemovedById(before: seq<Todo>, after: seq<Todo>, id: int) {
    && SubsequenceOf(after, before)
    && !HasId(after, id)
    && |after| == |before| - CountId(before, id)
  }

  /** `s.map(x => x.id === id ? t : x)` */
  function ReplaceById(s: seq<Todo>, id: int, t: Todo): (r: seq<Todo>)
    ensures ReplacedById(s, r, id, t)
  {
    if s == [] then []
    else [if s[0].id == id then t else s[0]] + ReplaceById(s[1..], id, t)
  }

  /** `s.map(x => x.id === id ? { ...x, ...p } : x)` */
  function PatchById(s: seq<Todo>, id: int, p: Patch): (r: seq<Todo>)
    ensures PatchedById(s, r, id, p)
  {
    if s == [] then []
    else [if s[0].id == id then Merge(s[0], p) else s[0]] + PatchById(s[1..], id, p)
  }

  /** `s.filter(x => x.id !== id)` */
  function RemoveById(s: seq<Todo>, id: int): (r: seq<Todo>)
    ensures RemovedById(s, r, id)
    ensures forall t :: t in r <==> t in s && t.id != id
  {
    if s == [] then []
    else if s[0].id == id then RemoveById(s[1..], id)
    else
      var rest := RemoveById(s[1..], id);
      assert ([s[0]] + rest)[1..] == rest;
      [s[0]] + rest
  }

  /** `s.find(x => x.id === id)`: the first element carrying `id`. */
  function FindById(s: seq<Todo>, id: int): (r: Option<Todo>)
    ensures r.Some? <==> HasId(s, id)
    ensures r.Some? ==> exists i :: 0 <= i < |s| && s[i] == r.value && r.value.id == id
                                    && !HasId(s[..i], id)
  {
    if s == [] then None
    else if s[0].id == id then
      assert s[..0] == [];
      Some(s[0])
    else
      var r := FindById(s[1..], id);
      if r.Some? then
        var i :| 0 <= i < |s[1..]| && s[1..][i] == r.value && r.value.id == id && !HasId(s[1..][..i], id);
        assert s[..i + 1] == [s[0]] + s[1..][..i];
        assert s[i + 1] == r.value;
        r
      else
        assert forall j :: 1 <= j < |s| ==> s[j] == s[1..][j - 1];
        r
  }

  /**
   * Insert-or-replace: when `s` holds `id`, its elements are replaced by `t`
   * in place; otherwise `t` goes in front.
   */
  function Upsert(s: seq<Todo>, id: int, t: Todo): (r: seq<Todo>)
    ensures t in r
    ensures HasId(s, id) ==> ReplacedById(s, r, id, t)
    ensures !HasId(s, id) ==> |r| == |s| + 1 && r[0] == t && r[1..] == s
    ensures forall u :: u in r ==> u == t || (u in s && u.id != id)
  {
    if HasId(s, id) then
      var r := ReplaceById(s, id, t);
      var i :| 0 <= i < |s| && s[i].id == id;
      assert r[i] == t;
      r
    else [t] + s
  }

  /** Two sequences that both fit `RemovedById` for the same input are equal. */
  lemma {:induction false} RemovedByIdUnique(before: seq<Todo>, a: seq<Todo>, b: seq<Todo>, id: int)
    requires RemovedById(before, a, id) && RemovedById(before, b, id)
    ensures a == b
    decreases |before|
  {
    if before == [] {
      assert a == [] && b == [];
    } else if before[0].id == id {
      SkipHead(a, before, id);
      SkipHead(b, before, id);
      RemovedByIdUnique(before[1..], a, b, id);
    } else {
      TakeHead(a, before, id);
      TakeHead(b, before, id);
      RemovedByIdUnique(before[1..], a[1..], b[1..], id);
      assert a == [a[0]] + a[1..] && b == [b[0]] + b[1..];
    }
  }

  /** When the head of `before` carries `id`, a removal result lives in the tail. */
  lemma SkipHead(a: seq<Todo>, before: seq<Todo>, id: int)
    requires before != [] && before[0].id == id
    requires RemovedById(before, a, id)
    ensures RemovedById(before[1..], a, id)
  {
    if a != [] {
      assert a[0].id != id by { assert !HasId(a, id); }
    }
  }

  /** When the head of `before` does not carry `id`, a removal result starts with it. */
  lemma TakeHead(a: seq<Todo>, before: seq<Todo>, id: int)
    requires before != [] && before[0].id != id
    requires RemovedById(before, a, id)
    ensures a != [] && a[0] == before[0]
    ensures RemovedById(before[1..], a[1..], id)
  {
    assert |a| == 1 + |before[1..]| - CountId(before[1..], id);
    if a == [] || a[0] != before[0] || !SubsequenceOf(a[1..], before[1..]) {
      assert SubsequenceOf(a, before[1..]);
      SubsequenceLength(a, before[1..], id);
      assert false;
    }
  }

  /** A subsequence free of `id` is at most as long as `b` without its `id`s. */
  lemma {:induction false} SubsequenceLength(a: seq<Todo>, b: seq<Todo>, id: int)
    requires SubsequenceOf(a, b) && !HasId(a, id)
    ensures |a| <= |b| - CountId(b, id)
    decreases |b|
  {
    if a == [] {
    } else if a[0] == b[0] && SubsequenceOf(a[1..], b[1..]) {
      assert a[0].id != id;
      SubsequenceLength(a[1..], b[1..], id);
    } else {
      SubsequenceLength(a, b[1..], id);
    }
  }

  /** Replacing elements of a list that does not carry `id` changes nothing. */
  lemma ReplaceAbsent(s: seq<Todo>, id: int, t: Todo)
    requires !HasId(s, id)
    ensures ReplaceById(s, id, t) == s
  {
  }

  /** Removing an id a list does not carry changes nothing. */
  lemma {:induction false} RemoveAbsent(s: seq<Todo>, id: int)
    requires !HasId(s, id)
    ensures RemoveById(s, id) == s
  {
    if s != [] {
      RemoveAbsent(s[1..], id);
    }
  }

  /** Filtering out an id twice is the same as filtering it out once. */
  lemma RemoveIdempotent(s: seq<Todo>, id: int)
    ensures RemoveById(RemoveById(s, id), id) == RemoveById(s, id)
  {
    RemoveAbsent(RemoveById(s, id), id);
  }
}

=== FILE: wrappers.dfy ===
/** Optional values and results used throughout the model. */
module Wrappers {

  /** An optional value: `None` stands for JavaScript's `undefined`. */
  datatype Option<+T> = None | Some(value: T) {

    /** The wrapped value, or `default` when there is none. */
    function GetOr(default: T): T {
      match this
      case Some(v) => v
      case None => default
    }
  }

  /** The outcome of an operation that can fail with an error value. */
  datatype Result<+R, +E> = Success(value: R) | Failure(error: E)
}
